=== FILE: README.md ===
# scstack provisioning orchestrator (`API_Abierta`) in Dafny

`API_Abierta` is the entry point of the scstack software forge. Each of its
operations keeps four collaborators in step:

- the LDAP directory (`GestorLDAP`), which holds users and projects;
- the Apache and SSH-jail configuration (`ConfiguradorApache`, `GeneradorFicherosApache`);
- the Redmine issue tracker (`GestorRedmine`);
- the repository folders on disk and the shell (`CommandLine`).

The orchestrator does little itself. It checks emails for duplicates, sweeps the
folders of a repository kind, and cascades a user deletion over that user's
projects. Otherwise it fixes the order of the collaborator calls and the values
they receive. This model states that order and those values, and proves the
orchestrator's own decisions.

Files:

- `errors.dfy` (module `Errors`): `Option`, `Result`, and `Error`, with one
  constructor per exception the operations can raise. `Outcome` is `Done` or
  `Failed(error)`.
- `text.dfy` (module `Text`): `String.equalsIgnoreCase` on ASCII letters, and
  its characterisation by case folding.
- `directory.dfy` (module `Directory`): the directory as a value
  (`Store`: users by uid, projects by cn). It has the read-backs the
  orchestrator uses and the directory mutations as functions returning
  `Result<Store>`. Their source is not part of this model, so each mutation
  carries the contract the orchestrator relies on. A missing record gives
  `NoSuchEntry`, a duplicate project gives `ProjectExists`, and every success
  keeps the store `Consistent`.
- `steps.dfy` (module `Steps`): the collaborator calls as `Step` values, the
  exception each call raises (`FailureOf`), and `Ran`. `Ran` describes a
  sequence of calls that stops at the first one that throws.
- `rules.dfy` (module `Rules`): the decisions that belong to `API_Abierta`
  itself, as functions, with the lemmas that give them meaning.
- `api.dfy` (module `Api`): class `ApiAbierta`.
  - The field `dir` is the directory, and `folders` is the set of repository
    folders on disk.
  - The ghost field `trace` records every collaborator call in order.
  - Each public operation is a method. Its contract gives the new `dir`,
    `folders` and `trace` for every way the call can end, except in these cases:
    - When `DeleteRepoFolders` or `DeleteRepositorioDeProyecto` stop on a failed
      folder removal, the remaining `folders` are only bounded. They lie between
      the old set minus every matching folder and the old set, and the calls
      issued are a prefix of the sweep.
    - When the loop of `DeleteUsuario` (`LeaveProjects`) stops on a failure,
      `dir.projects` is given by the ghost output `left`: the user has left
      exactly those projects. The calls issued are stated to be removals on
      behalf of the user that end with the call that threw; their grouping into
      per-project blocks is stated when the loop completes.
    - When that loop completes, each config regeneration it issued is given
      the project as it stood before the loop less the user, and the uids
      before the loop. Its project-list argument is not tied to an
      intermediate state of the directory.
  - A collaborator call other than a directory mutation may throw. The model
    expresses this as a nondeterministic choice in `Invoke`. Directory
    mutations apply the corresponding `Directory` function (`Mutate`).

## Model

| member | source | states |
|---|---|---|
| Api.Open | es.sidelab.scstack.lib/src/main/java/es/sidelab/scstack/lib/api/API_Abierta.java:70-76 | a null logger is refused with IllegalArgumentException, and only a null logger is |
| Api.ApiAbierta.constructor | es.sidelab.scstack.lib/src/main/java/es/sidelab/scstack/lib/api/API_Abierta.java:76 | the orchestrator starts over the given directory and folders with nothing issued |
| Api.ApiAbierta.AddProyecto | es.sidelab.scstack.lib/src/main/java/es/sidelab/scstack/lib/api/API_Abierta.java:105-114 | an existing cn fails with ProjectExists before anything else; otherwise the project, with primerAdmin its sole administrator, is stored first; the config is then given the project list and uid list read after the insert, then the tracker creates it and hides it, stopping at the first failure |
| Api.ApiAbierta.AddUsuario | es.sidelab.scstack.lib/src/main/java/es/sidelab/scstack/lib/api/API_Abierta.java:117-169 | a listed duplicate email, or an unreadable list, fails with ExcepcionUsuario before any directory, tracker, jail or SSH step; a null list lets the email through; on success the stored record carries the MD5 of the password |
| Api.ApiAbierta.Register | es.sidelab.scstack.lib/src/main/java/es/sidelab/scstack/lib/api/API_Abierta.java:137-168 | the user is stored first; the tracker then receives the plaintext password, the jail file the uid list read after the insert (so it contains the new uid), then SSH restarts; each step runs only if the previous one succeeded |
| Api.ApiAbierta.AddUsuarioAProyecto | es.sidelab.scstack.lib/src/main/java/es/sidelab/scstack/lib/api/API_Abierta.java:172-175 | directory first (missing project or user: NoSuchEntry, nothing else issued), then the tracker membership |
| Api.ApiAbierta.AddAdministradorAProyecto | es.sidelab.scstack.lib/src/main/java/es/sidelab/scstack/lib/api/API_Abierta.java:178-181 | directory first (the admin also becomes a member), then the tracker role |
| Api.ApiAbierta.AddRepositorioAProyecto | es.sidelab.scstack.lib/src/main/java/es/sidelab/scstack/lib/api/API_Abierta.java:184-189 | the repository is appended to the project's list in the directory, then the config is regenerated from the project as read back after the mutation |
| Api.ApiAbierta.EditUsuario | es.sidelab.scstack.lib/src/main/java/es/sidelab/scstack/lib/api/API_Abierta.java:247-258 | the edit is refused as EditEmailCheck decides, and then nothing is issued; otherwise directory first, then the tracker |
| Api.ApiAbierta.DeleteUsuarioDeProyecto | es.sidelab.scstack.lib/src/main/java/es/sidelab/scstack/lib/api/API_Abierta.java:279-284 | the membership is removed first (not a member: NoSuchEntry; an administrator may be refused as the last one); the config is then given the project as it stands after the removal, which no longer lists uid, then the tracker; every call issued is on behalf of uid; a completed call issues its three calls once each, for cn, in that order; once the removal is accepted, a failure is that of the last call issued (SoleAdministrator on the removal, ApacheFailure on the config, RedmineFailure on the tracker) |
| Api.ApiAbierta.DeleteAdministradorDeProyecto | es.sidelab.scstack.lib/src/main/java/es/sidelab/scstack/lib/api/API_Abierta.java:287-292 | the administrator role is removed first (may be refused as the last one); then the config is given the post-removal project, then the tracker |
| Api.ApiAbierta.DeleteRepoFolders | es.sidelab.scstack.lib/src/main/java/es/sidelab/scstack/lib/api/API_Abierta.java:296-301 | after the loop the folders are the old ones minus those of the repositories whose kind matches ignoring case, removed in list order; a failed removal ends the loop with only a prefix of those deletions done |
| Api.ApiAbierta.DeleteRepositorioDeProyecto | es.sidelab.scstack.lib/src/main/java/es/sidelab/scstack/lib/api/API_Abierta.java:294-306 | an unknown project fails before anything; all folder deletions happen before the directory record is changed; the directory then keeps only repositories of other kinds, and the config is regenerated last; on every outcome the calls issued before the operation are kept and the new ones come after them |
| Api.ApiAbierta.DeleteProyecto | es.sidelab.scstack.lib/src/main/java/es/sidelab/scstack/lib/api/API_Abierta.java:309-315 | the project is read before its deletion; the config purge and the tracker receive that pre-deletion value, and the purge receives the list read after the deletion, which no longer holds cn |
| Api.ApiAbierta.LeaveProjects | es.sidelab.scstack.lib/src/main/java/es/sidelab/scstack/lib/api/API_Abierta.java:321-323 | deleteUsuarioDeProyecto runs in full once for every project in the membership list read before the loop, and for no other project; the calls form whole blocks in order (directory removal, config regeneration for the project as it stood before the loop less uid with the uids read before the loop, tracker removal), one block per project; a failure stops the loop with the user record untouched, the error is that of the last call issued (SoleAdministrator on a directory removal, ApacheFailure on a config, RedmineFailure on a tracker removal), and the projects then hold the user removed from exactly the set left |
| Api.ApiAbierta.DeleteUsuario | es.sidelab.scstack.lib/src/main/java/es/sidelab/scstack/lib/api/API_Abierta.java:318-326 | the user is deleted from the directory (and then the tracker) only after every removal ran in full, as whole per-project blocks in order, so on every path that issues the deletion the user has left all its projects; afterwards no project names the user and nobody else's roles changed; if a removal throws, the user record remains and the error is that of the last removal call issued |
| Api.ApiAbierta.InicializaForja | es.sidelab.scstack.lib/src/main/java/es/sidelab/scstack/lib/api/API_Abierta.java:337-341 | the superadministrator (email info@info.com) is created first, then the groupSuperadmin project with that uid as sole administrator and no repository; if the email is listed the call fails with nothing issued; once the check passes for a fresh uid, on every outcome the user is stored, the calls issued are a prefix of the eight-call plan holding at least the user insert and the tracker call, and the whole plan on success; a failure is that of the last call issued, except ProjectExists, raised exactly when the project insert was issued with groupSuperadmin taken; and the project is stored exactly when its insert was issued with the cn free |
| Api.ApiAbierta.UserStepStopped | es.sidelab.scstack.lib/src/main/java/es/sidelab/scstack/lib/api/API_Abierta.java:339 | when addUsuario stores the superadministrator and then throws, inicializaForja has issued a prefix of its plan no longer than the user part, the failure is that of the last call, and the projects are untouched |
| Api.ApiAbierta.ProjectStepRan | es.sidelab.scstack.lib/src/main/java/es/sidelab/scstack/lib/api/API_Abierta.java:339-340 | when addUsuario completes and addProyecto then ends either way, the calls issued are a prefix of the plan (all of it on success), and the project is stored exactly when groupSuperadmin was free |
| Steps.RanWithin | es.sidelab.scstack.lib/src/main/java/es/sidelab/scstack/lib/api/API_Abierta.java:339-340 | a run of the later part of a plan, after its earlier steps, has issued a prefix of the whole plan, all of that part when it completes |
| Rules.CreateEmailCheckMeaning | es.sidelab.scstack.lib/src/main/java/es/sidelab/scstack/lib/api/API_Abierta.java:129-131 | against the directory's list, creation is refused exactly when some user already has the email; a null list refuses nothing |
| Rules.CreateCheckKeepsEmailsUnique | es.sidelab.scstack.lib/src/main/java/es/sidelab/scstack/lib/api/API_Abierta.java:124-140 | a user added after passing the check keeps emails unique across users |
| Rules.EditEmailCheckMeaning | es.sidelab.scstack.lib/src/main/java/es/sidelab/scstack/lib/api/API_Abierta.java:250-252 | for an existing user, the edit is refused exactly when another user holds the new email; keeping one's own email passes |
| Rules.EditCheckKeepsEmailsUnique | es.sidelab.scstack.lib/src/main/java/es/sidelab/scstack/lib/api/API_Abierta.java:248-256 | an edit that passes the check keeps emails unique across users |
| Rules.CreateEmailCheck | es.sidelab.scstack.lib/src/main/java/es/sidelab/scstack/lib/api/API_Abierta.java:129-135 | the only error the check raises is ExcepcionUsuario; a listed email is refused; a null list refuses nothing |
| Rules.EditEmailCheck | es.sidelab.scstack.lib/src/main/java/es/sidelab/scstack/lib/api/API_Abierta.java:250-254 | an edit is refused only for a listed email; an existing user keeping its own email passes; a listed email that the user does not already hold is refused |
| Rules.SweepSteps | es.sidelab.scstack.lib/src/main/java/es/sidelab/scstack/lib/api/API_Abierta.java:298-301 | the folder deletions of the loop, in list order: only deletions of existing folders of that project, at most one per repository |
| Text.EqualsIgnoreCase | es.sidelab.scstack.lib/src/main/java/es/sidelab/scstack/lib/api/API_Abierta.java:299 | equal strings are equal ignoring case, and strings equal ignoring case have the same length |
| Directory.NewProject | es.sidelab.scstack.lib/src/main/java/es/sidelab/scstack/lib/api/API_Abierta.java:109 | new Proyecto(cn, description, primerAdmin, repo): primerAdmin is the sole administrator and a member; a null repository means none |
| Api.ApiAbierta.ReadEmails | es.sidelab.scstack.lib/src/main/java/es/sidelab/scstack/lib/api/API_Abierta.java:129 | getListaEmailsUsuarios may throw or answer null; when it answers a list, that list is the directory's emails |
| Rules.SweepStepsExact | es.sidelab.scstack.lib/src/main/java/es/sidelab/scstack/lib/api/API_Abierta.java:298-301 | the sweep deletes exactly the existing folders of matching repositories, each once, and touches nothing else |
| Rules.SweepStepsPrefix | es.sidelab.scstack.lib/src/main/java/es/sidelab/scstack/lib/api/API_Abierta.java:298-301 | the deletions issued for a prefix of the repository list are a prefix of the whole sweep's |
| Rules.SweepAdvance | es.sidelab.scstack.lib/src/main/java/es/sidelab/scstack/lib/api/API_Abierta.java:298-301 | one turn of the loop deletes the repository's folder exactly when its kind matches and the folder is still there, and the folders left shrink by that folder when the kind matches |
| Rules.SweepStopped | es.sidelab.scstack.lib/src/main/java/es/sidelab/scstack/lib/api/API_Abierta.java:298-301 | a loop stopped by a failed deletion has issued a non-empty prefix of the whole sweep, and the folders left lie between the whole sweep's result and the start |
| Rules.MatchingSnoc | es.sidelab.scstack.lib/src/main/java/es/sidelab/scstack/lib/api/API_Abierta.java:298-300 | one more repository adds its folder to the matching set exactly when its kind matches |
| Rules.MatchingPrefix | es.sidelab.scstack.lib/src/main/java/es/sidelab/scstack/lib/api/API_Abierta.java:298-300 | the folders matching a prefix of the list are among those matching the whole list |
| Rules.CascadeClearsUser | es.sidelab.scstack.lib/src/main/java/es/sidelab/scstack/lib/api/API_Abierta.java:320-323 | once the user has left every project it is a member of, no project names it as member or administrator, the project set is unchanged and nobody else's roles changed |
| Rules.CascadeAppend | es.sidelab.scstack.lib/src/main/java/es/sidelab/scstack/lib/api/API_Abierta.java:321-323 | two runs of calls that only remove uid from projects make one such run |
| Rules.RemovalBlock | es.sidelab.scstack.lib/src/main/java/es/sidelab/scstack/lib/api/API_Abierta.java:280-283 | the calls of deleteUsuarioDeProyecto, however far they get, are all on behalf of uid; completed, they form one full block for cn, each of the three calls once and in order, the config given the project as it stood before the removal less uid and the uids of that store |
| Rules.FullBlockTally | es.sidelab.scstack.lib/src/main/java/es/sidelab/scstack/lib/api/API_Abierta.java:280-283 | a completed deleteUsuarioDeProyecto names cn once in each of its three kinds of call |
| Rules.BlocksSnoc | es.sidelab.scstack.lib/src/main/java/es/sidelab/scstack/lib/api/API_Abierta.java:321-323 | appending one full removal block, described against the store before the loop, to a run of whole blocks gives a run of whole blocks |
| Rules.FullBlockRebase | es.sidelab.scstack.lib/src/main/java/es/sidelab/scstack/lib/api/API_Abierta.java:279-284 | a full block described against a store mid-loop is also one against the store before the loop, as long as the project it names and the users are unchanged between the two |
| Rules.StoppedAtAppend | es.sidelab.scstack.lib/src/main/java/es/sidelab/scstack/lib/api/API_Abierta.java:321-323 | a cascade stopped by a failing call is still stopped by that call, with its error, once earlier calls are put in front |
| Rules.LeavingStep | es.sidelab.scstack.lib/src/main/java/es/sidelab/scstack/lib/api/API_Abierta.java:321-323 | one completed deleteUsuarioDeProyecto for a project not yet left keeps the loop's account: removals on behalf of uid, one block per project left, blocks against the store before the loop, and the projects hold the user removed from exactly the projects left |
| Rules.TallyAppend | es.sidelab.scstack.lib/src/main/java/es/sidelab/scstack/lib/api/API_Abierta.java:321-323 | the projects for which each kind of removal call was issued add up over consecutive runs |
| Rules.OncePerProjectStep | es.sidelab.scstack.lib/src/main/java/es/sidelab/scstack/lib/api/API_Abierta.java:321-323 | a full removal for one more project extends "each call once per project" by that project |
| Text.EqualsIgnoreCaseIffFolded | es.sidelab.scstack.lib/src/main/java/es/sidelab/scstack/lib/api/API_Abierta.java:299 | two kinds are equal ignoring case exactly when their case-folded forms are equal |
| Text.FoldedLength | es.sidelab.scstack.lib/src/main/java/es/sidelab/scstack/lib/api/API_Abierta.java:299 | case folding keeps the length |
| Text.FoldedAt | es.sidelab.scstack.lib/src/main/java/es/sidelab/scstack/lib/api/API_Abierta.java:299 | case folding works character by character |
| Directory.KeepOtherTypes | es.sidelab.scstack.lib/src/main/java/es/sidelab/scstack/lib/api/API_Abierta.java:303 | the repositories kept are exactly those whose kind does not match ignoring case (the directory's assumed behaviour) |
| Directory.AddProject | es.sidelab.scstack.lib/src/main/java/es/sidelab/scstack/lib/api/API_Abierta.java:110 | assumed directory contract: a taken cn is refused, and an insert adds exactly that cn and keeps the store consistent |
| Directory.AddUser | es.sidelab.scstack.lib/src/main/java/es/sidelab/scstack/lib/api/API_Abierta.java:140 | assumed directory contract: a taken uid is refused, and an insert adds exactly that uid |
| Directory.AddMember | es.sidelab.scstack.lib/src/main/java/es/sidelab/scstack/lib/api/API_Abierta.java:173 | assumed directory contract: an unknown project or user is refused; the users and project names are unchanged |
| Directory.AddAdmin | es.sidelab.scstack.lib/src/main/java/es/sidelab/scstack/lib/api/API_Abierta.java:179 | assumed directory contract: as AddMember, and consistency (administrators are members) is kept |
| Directory.AddRepo | es.sidelab.scstack.lib/src/main/java/es/sidelab/scstack/lib/api/API_Abierta.java:186 | assumed directory contract: an unknown project is refused; otherwise the project survives |
| Directory.EditUser | es.sidelab.scstack.lib/src/main/java/es/sidelab/scstack/lib/api/API_Abierta.java:256 | assumed directory contract: an unknown uid is refused; the uid set and the projects are unchanged |
| Directory.RemoveMember | es.sidelab.scstack.lib/src/main/java/es/sidelab/scstack/lib/api/API_Abierta.java:280 | assumed directory contract: a non-member is refused; users and project names are unchanged and consistency is kept |
| Directory.RemoveAdmin | es.sidelab.scstack.lib/src/main/java/es/sidelab/scstack/lib/api/API_Abierta.java:288 | assumed directory contract: a non-administrator is refused; users and project names are unchanged |
| Directory.RemoveRepos | es.sidelab.scstack.lib/src/main/java/es/sidelab/scstack/lib/api/API_Abierta.java:303 | assumed directory contract: an unknown project is refused; users and project names are unchanged |
| Directory.RemoveProject | es.sidelab.scstack.lib/src/main/java/es/sidelab/scstack/lib/api/API_Abierta.java:312 | assumed directory contract: exactly cn leaves the project names |
| Directory.RemoveUser | es.sidelab.scstack.lib/src/main/java/es/sidelab/scstack/lib/api/API_Abierta.java:324 | assumed directory contract: an unknown uid is refused; exactly that uid leaves the users |

## Left out

- The directory, the tracker, the Apache/jail file generators and the shell are
  not part of this model. The directory is a value with the contracts above. The
  other collaborators appear only as recorded calls that may throw. Their
  arguments are recorded, not their effect.
- `Api.ApiAbierta.DeleteUsuarioDeProyecto`, `Api.ApiAbierta.DeleteAdministradorDeProyecto`:
  the directory's last-administrator check is not modelled. A removal whose
  target is an administrator may be refused with `SoleAdministrator`, and
  nothing more is claimed.
- `Api.ApiAbierta.DeleteRepositorioDeProyecto`: the directory's answer when no
  repository of that kind exists is not known. It may be refused with
  `NoSuchEntry` or accepted.
- `Api.ApiAbierta.EditUsuario`: the email list is not null-checked, and a null
  list is modelled as `NullPointer`. Looking up a uid that does not exist is
  modelled as `NoSuchEntry`, because the directory's exception hierarchy is not
  visible.
- `Api.ApiAbierta.Mutate`: a directory mutation fails only in the cases each
  `Directory` function lists (missing record, duplicate uid or cn, a
  possible refusal of the last administrator). The model
  has no other communication failure (`ExcepcionGestorLDAP`) in a mutation, so
  the contracts of the operations do not cover a mutation that fails for
  another reason.
- `Api.ApiAbierta.DeleteUsuario`: "no project names the user" rests on three
  directory behaviours that are assumed, not seen:
  - every administrator of a project is also a member (`Consistent`, required
    when the orchestrator is opened);
  - `new Proyecto` enrols `primerAdmin` as a member as well as administrator
    (`NewProject`);
  - removing a membership also removes the administrator role (`Strip`).

  The loop visits only the membership list. A user who administered a project
  without being a member would be left in it.
- `Utilidades.toMD5` is an uninterpreted function. `NoSuchAlgorithmException`
  is not modelled.
- `FactoriaRepositorios.crearRepositorio` is not part of this model. Operations
  receive the repository it would build, and `ExcepcionRepositorio` is not
  modelled.
- The repository's own `borrarRepositorio` and `Utilidades.existeCarpeta` are
  modelled as removing an element from, and testing membership in, the set of
  folders. The folder deletion itself may throw.
- Communication failures of directory reads are modelled only for the email
  list. Communication failures of the other reads (project list, uid list,
  project, membership list) are not modelled. A missing project on
  `getProyecto` is modelled as `NoSuchEntry`.
- Lists read from the directory are sets, because their order is not known.
  `deleteUsuario` visits the projects in an unspecified order.
- Case-insensitive comparison covers ASCII letters only.
- Configuration loading and collaborator construction (lines 78-100) and the
  one-argument constructor are left out. `groupSuperadmin` is a field.
- The pass-through getters (lines 192-244), `editProyecto`, `bloquearUsuario`
  and `desbloquearUsuario` (lines 261-276) are left out: they delegate without
  logic of their own.
- Logging is left out.
- Concurrent callers are left out. The check-then-act in `addUsuario` and
  `editUsuario` is only sound sequentially.

=== FILE: api.dfy ===
/** API_Abierta: the provisioning orchestrator. It keeps the directory, the
    Apache/SSH configuration, the issue tracker and the repository folders in
    step. The directory and the folders on disk are fields; every call on a
    collaborator is recorded in the ghost trace, and every collaborator call
    other than a directory mutation may throw. */
module Api {
  import opened Errors
  import opened Text
  import opened Directory
  import opened Steps
  import opened Rules

  datatype Logger = Logger(name: string)

  const SuperadminName := "Usuario Superadministrador"
  const SuperadminSurname := "Permanente"
  const SuperadminEmail := "info@info.com"
  const SuperadminGroupDescription := "Proyecto que agrupa a los superadministradores de la Forja"

  /** The two-argument constructor: a null logger is refused before anything else. */
  method Open(log: Option<Logger>, groupSuperadmin: Cn, toMD5: string -> string, dir: Store, folders: set<Folder>)
    returns (r: Result<ApiAbierta>)
    requires Consistent(dir)
    ensures r.Err? <==> log.None?
    ensures r.Err? ==> r.error == IllegalArgument
    ensures r.Ok? ==> fresh(r.value) && r.value.Valid() && r.value.log == log.value
                      && r.value.dir == dir && r.value.folders == folders && r.value.trace == []
  {
    if log.None? {
      return Err(IllegalArgument);
    }
    var api := new ApiAbierta(log.value, groupSuperadmin, toMD5, dir, folders);
    r := Ok(api);
  }

  class ApiAbierta {
    const log: Logger
    /** ConfiguracionForja.groupSuperadmin */
    const groupSuperadmin: Cn
    /** Utilidades.toMD5, left uninterpreted */
    const toMD5: string -> string

    /** What the directory holds. */
    var dir: Store
    /** The repository folders present on disk. */
    var folders: set<Folder>
    /** Every collaborator call made so far, in order. */
    ghost var trace: seq<Step>

    ghost predicate Valid()
      reads this
    {
      Consistent(dir)
    }

    constructor (log: Logger, groupSuperadmin: Cn, toMD5: string -> string, dir: Store, folders: set<Folder>)
      requires Consistent(dir)
      ensures Valid()
      ensures this.log == log && this.groupSuperadmin == groupSuperadmin && this.toMD5 == toMD5
      ensures this.dir == dir && this.folders == folders && trace == []
    {
      this.log := log;
      this.groupSuperadmin := groupSuperadmin;
      this.toMD5 := toMD5;
      this.dir := dir;
      this.folders := folders;
      trace := [];
    }

    // -------------------------------------------------------------------------
    // Collaborator calls

    /** A call on the Apache configurator, the SSH jail, the shell or the
        tracker: it is recorded and may throw. */
    method Invoke(s: Step) returns (ok: bool)
      modifies this`trace
      ensures trace == old(trace) + [s]
    {
      trace := trace + [s];
      ok :| true;
    }

    /** A directory mutation whose answer is res. */
    method Mutate(s: Step, res: Result<Store>) returns (r: Outcome)
      modifies this`dir, this`trace
      ensures trace == old(trace) + [s]
      ensures res.Ok? ==> dir == res.value && r == Done
      ensures res.Err? ==> dir == old(dir) && r == Failed(res.error)
    {
      trace := trace + [s];
      if res.Ok? {
        dir := res.value;
        r := Done;
      } else {
        r := Failed(res.error);
      }
    }

    /** getListaEmailsUsuarios: may throw, may answer null, or lists every user's email. */
    method ReadEmails() returns (answer: EmailList)
      ensures answer.Listed? ==> answer.emails == Emails(dir)
    {
      var unreadable: bool :| true;
      var isNull: bool :| true;
      answer := if unreadable then Unreadable else if isNull then Null else Listed(Emails(dir));
    }

    // -------------------------------------------------------------------------
    // Operations

    method AddProyecto(cn: Cn, description: string, primerAdmin: Uid, repo: Option<Repo>) returns (r: Outcome)
      requires Valid()
      modifies this`dir, this`trace
      ensures Valid()
      ensures cn in old(dir.projects) ==>
                && r == Failed(ProjectExists) && dir == old(dir)
                && trace == old(trace) + [DirAddProject(NewProject(cn, description, primerAdmin, repo))]
      ensures cn !in old(dir.projects) ==>
                var p := NewProject(cn, description, primerAdmin, repo);
                && dir == old(dir).(projects := old(dir.projects)[cn := p])
                && Ran(old(trace) + [DirAddProject(p)], trace,
                       [Configure(ProjectList(dir), p, Uids(dir)), TrackerCreateProject(p), TrackerHidePublic(cn)], r)
      ensures r.Done? ==> cn in dir.projects && dir.projects[cn].admins == {primerAdmin}
    {
      var p := NewProject(cn, description, primerAdmin, repo);
      r := Mutate(DirAddProject(p), AddProject(dir, p));
      if r.Failed? {
        return;
      }
      var ok := Invoke(Configure(ProjectList(dir), p, Uids(dir)));
      if !ok {
        return Failed(ApacheFailure);
      }
      ok := Invoke(TrackerCreateProject(p));
      if !ok {
        return Failed(RedmineFailure);
      }
      ok := Invoke(TrackerHidePublic(cn));
      if !ok {
        return Failed(RedmineFailure);
      }
    }

    method AddUsuario(uid: Uid, nombre: string, apellidos: string, email: string, pass: string)
      returns (r: Outcome, ghost answer: EmailList)
      requires Valid()
      modifies this`dir, this`trace
      ensures Valid()
      ensures answer.Listed? ==> answer.emails == Emails(old(dir))
      ensures CreateEmailCheck(answer, email).Failed? ==>
                r == CreateEmailCheck(answer, email) && dir == old(dir) && trace == old(trace)
      ensures CreateEmailCheck(answer, email).Done? && uid in old(dir.users) ==>
                && r == Failed(DirectoryFailure) && dir == old(dir)
                && trace == old(trace) + [DirAddUser(User(uid, nombre, apellidos, email, toMD5(pass)))]
      ensures CreateEmailCheck(answer, email).Done? && uid !in old(dir.users) ==>
                var u := User(uid, nombre, apellidos, email, toMD5(pass));
                && dir == old(dir).(users := old(dir.users)[uid := u])
                && Ran(old(trace) + [DirAddUser(u)], trace, [TrackerCreateUser(u, pass), WriteJail(Uids(dir)), RestartSsh], r)
      ensures r.Done? ==> uid in dir.users && dir.users[uid].pass == toMD5(pass) && dir.users[uid].email == email
    {
      var passMD5 := toMD5(pass);
      var listaEmails := ReadEmails();
      answer := listaEmails;
      var check := CreateEmailCheck(listaEmails, email);
      if check.Failed? {
        return check, answer;
      }
      r := Register(User(uid, nombre, apellidos, email, passMD5), pass);
    }

    /** The part of addUsuario after the email check: directory, tracker (which
        is given the plaintext password), SSH-jail file from the uids read back
        after the insert, SSH restart. */
    method Register(user: User, pass: string) returns (r: Outcome)
      requires Valid()
      modifies this`dir, this`trace
      ensures Valid()
      ensures user.uid in old(dir.users) ==>
                r == Failed(DirectoryFailure) && dir == old(dir) && trace == old(trace) + [DirAddUser(user)]
      ensures user.uid !in old(dir.users) ==>
                && dir == old(dir).(users := old(dir.users)[user.uid := user])
                && Ran(old(trace) + [DirAddUser(user)], trace, [TrackerCreateUser(user, pass), WriteJail(Uids(dir)), RestartSsh], r)
    {
      r := Mutate(DirAddUser(user), AddUser(dir, user));
      if r.Failed? {
        return;
      }
      var ok := Invoke(TrackerCreateUser(user, pass));
      if !ok {
        return Failed(RedmineFailure);
      }
      ok := Invoke(WriteJail(Uids(dir)));
      if !ok {
        return Failed(JailFailure);
      }
      ok := Invoke(RestartSsh);
      if !ok {
        return Failed(SshRestartFailure);
      }
    }

    method AddUsuarioAProyecto(uid: Uid, cn: Cn) returns (r: Outcome)
      requires Valid()
      modifies this`dir, this`trace
      ensures Valid()
      ensures AddMember(old(dir), cn, uid).Err? ==>
                r == Failed(NoSuchEntry) && dir == old(dir) && trace == old(trace) + [DirAddMember(cn, uid)]
      ensures AddMember(old(dir), cn, uid).Ok? ==>
                && dir == AddMember(old(dir), cn, uid).value
                && Ran(old(trace) + [DirAddMember(cn, uid)], trace, [TrackerAddMember(uid, cn)], r)
    {
      r := Mutate(DirAddMember(cn, uid), AddMember(dir, cn, uid));
      if r.Failed? {
        return;
      }
      var ok := Invoke(TrackerAddMember(uid, cn));
      if !ok {
        return Failed(RedmineFailure);
      }
    }

    method AddAdministradorAProyecto(uid: Uid, cn: Cn) returns (r: Outcome)
      requires Valid()
      modifies this`dir, this`trace
      ensures Valid()
      ensures AddAdmin(old(dir), cn, uid).Err? ==>
                r == Failed(NoSuchEntry) && dir == old(dir) && trace == old(trace) + [DirAddAdmin(cn, uid)]
      ensures AddAdmin(old(dir), cn, uid).Ok? ==>
                && dir == AddAdmin(old(dir), cn, uid).value
                && Ran(old(trace) + [DirAddAdmin(cn, uid)], trace, [TrackerAddAdmin(uid, cn)], r)
    {
      r := Mutate(DirAddAdmin(cn, uid), AddAdmin(dir, cn, uid));
      if r.Failed? {
        return;
      }
      var ok := Invoke(TrackerAddAdmin(uid, cn));
      if !ok {
        return Failed(RedmineFailure);
      }
    }

    method AddRepositorioAProyecto(repo: Repo, cn: Cn) returns (r: Outcome)
      requires Valid()
      modifies this`dir, this`trace
      ensures Valid()
      ensures cn !in old(dir.projects) ==>
                r == Failed(NoSuchEntry) && dir == old(dir) && trace == old(trace) + [DirAddRepo(repo, cn)]
      ensures cn in old(dir.projects) ==>
                && dir == AddRepo(old(dir), repo, cn).value
                && dir.projects[cn].repos == old(dir.projects[cn].repos) + [repo]
                && Ran(old(trace) + [DirAddRepo(repo, cn)], trace, [Reconfigure(dir, cn)], r)
    {
      r := Mutate(DirAddRepo(repo, cn), AddRepo(dir, repo, cn));
      if r.Failed? {
        return;
      }
      var ok := Invoke(Reconfigure(dir, cn));
      if !ok {
        return Failed(ApacheFailure);
      }
    }

    method EditUsuario(u: User) returns (r: Outcome, ghost answer: EmailList)
      requires Valid()
      modifies this`dir, this`trace
      ensures Valid()
      ensures answer.Listed? ==> answer.emails == Emails(old(dir))
      ensures EditEmailCheck(answer, old(dir), u).Failed? ==>
                r == EditEmailCheck(answer, old(dir), u) && dir == old(dir) && trace == old(trace)
      ensures EditEmailCheck(answer, old(dir), u).Done? && u.uid !in old(dir.users) ==>
                r == Failed(NoSuchEntry) && dir == old(dir) && trace == old(trace) + [DirEditUser(u)]
      ensures EditEmailCheck(answer, old(dir), u).Done? && u.uid in old(dir.users) ==>
                && dir == old(dir).(users := old(dir.users)[u.uid := u])
                && Ran(old(trace) + [DirEditUser(u)], trace, [TrackerEditUser(u)], r)
    {
      var listaEmails := ReadEmails();
      answer := listaEmails;
      var check := EditEmailCheck(listaEmails, dir, u);
      if check.Failed? {
        return check, answer;
      }
      r := Mutate(DirEditUser(u), EditUser(dir, u));
      if r.Failed? {
        return;
      }
      var ok := Invoke(TrackerEditUser(u));
      if !ok {
        return Failed(RedmineFailure), answer;
      }
    }

    /** deleteUsuarioDeProyecto; block is what it issued, for deleteUsuario's account. */
    method DeleteUsuarioDeProyecto(uid: Uid, cn: Cn) returns (r: Outcome, ghost block: seq<Step>)
      requires Valid()
      modifies this`dir, this`trace
      ensures Valid()
      ensures dir.users == old(dir.users)
      ensures trace == old(trace) + block && Cascade(block, uid)
      ensures r.Done? ==> && RemoveMember(old(dir), uid, cn).Ok? && dir == RemoveMember(old(dir), uid, cn).value
                          && OncePerProject(block, {cn}) && FullBlock(block, uid, old(dir))
      ensures RemoveMember(old(dir), uid, cn).Err? ==>
                r == Failed(NoSuchEntry) && dir == old(dir) && block == [DirDeleteMember(uid, cn)]
      ensures RemoveMember(old(dir), uid, cn).Ok? && r.Failed? ==>
                StoppedAt(block, r)
      ensures r == Failed(SoleAdministrator) ==>
                && RemoveMember(old(dir), uid, cn).Ok? && uid in old(dir.projects[cn].admins)
                && dir == old(dir) && block == [DirDeleteMember(uid, cn)]
      ensures RemoveMember(old(dir), uid, cn).Ok? && r != Failed(SoleAdministrator) ==>
                && dir == RemoveMember(old(dir), uid, cn).value
                && (r.Done? || r == Failed(ApacheFailure) || r == Failed(RedmineFailure))
                && block == [DirDeleteMember(uid, cn), Reconfigure(dir, cn), TrackerDeleteMember(uid, cn)][..if r == Failed(ApacheFailure) then 2 else 3]
    {
      var res := RemoveMember(dir, uid, cn);
      if res.Ok? && uid in dir.projects[cn].admins {
        var refused: bool :| true;
        if refused {
          res := Err(SoleAdministrator);
        }
      }
      r := Mutate(DirDeleteMember(uid, cn), res);
      block := [DirDeleteMember(uid, cn)];
      if r.Failed? {
        return;
      }
      ghost var plan := [Reconfigure(dir, cn), TrackerDeleteMember(uid, cn)];
      var ok := Invoke(Reconfigure(dir, cn));
      block := [DirDeleteMember(uid, cn)] + plan[..1];
      RemovalBlock(uid, cn, plan[0], old(dir), 1);
      if !ok {
        return Failed(ApacheFailure), block;
      }
      ok := Invoke(TrackerDeleteMember(uid, cn));
      block := [DirDeleteMember(uid, cn)] + plan[..2];
      RemovalBlock(uid, cn, plan[0], old(dir), 2);
      if !ok {
        return Failed(RedmineFailure), block;
      }
    }

    method DeleteAdministradorDeProyecto(uid: Uid, cn: Cn) returns (r: Outcome)
      requires Valid()
      modifies this`dir, this`trace
      ensures Valid()
      ensures RemoveAdmin(old(dir), uid, cn).Err? ==>
                r == Failed(NoSuchEntry) && dir == old(dir) && trace == old(trace) + [DirDeleteAdmin(uid, cn)]
      ensures RemoveAdmin(old(dir), uid, cn).Ok? ==>
                || (r == Failed(SoleAdministrator) && dir == old(dir) && trace == old(trace) + [DirDeleteAdmin(uid, cn)])
                || (&& dir == RemoveAdmin(old(dir), uid, cn).value
                    && Ran(old(trace) + [DirDeleteAdmin(uid, cn)], trace,
                           [Reconfigure(dir, cn), TrackerDeleteAdmin(uid, cn)], r))
    {
      var res := RemoveAdmin(dir, uid, cn);
      if res.Ok? {
        var refused: bool :| true;
        if refused {
          res := Err(SoleAdministrator);
        }
      }
      r := Mutate(DirDeleteAdmin(uid, cn), res);
      if r.Failed? {
        return;
      }
      var ok := Invoke(Reconfigure(dir, cn));
      if !ok {
        return Failed(ApacheFailure);
      }
      ok := Invoke(TrackerDeleteAdmin(uid, cn));
      if !ok {
        return Failed(RedmineFailure);
      }
    }

    method DeleteProyecto(cn: Cn) returns (r: Outcome)
      requires Valid()
      modifies this`dir, this`trace
      ensures Valid()
      ensures cn !in old(dir.projects) ==> r == Failed(NoSuchEntry) && dir == old(dir) && trace == old(trace)
      ensures cn in old(dir.projects) ==>
                var p := old(dir.projects[cn]);
                && dir == old(dir).(projects := old(dir.projects) - {cn})
                && Ran(old(trace) + [DirDeleteProject(cn)], trace, [PurgeConfig(ProjectList(dir), p), TrackerDeleteProject(p)], r)
      ensures forall q :: q in ProjectList(dir) ==> q.cn != cn
    {
      if cn !in dir.projects {
        return Failed(NoSuchEntry);
      }
      var proyecto := dir.projects[cn];
      r := Mutate(DirDeleteProject(cn), RemoveProject(dir, cn));
      if r.Failed? {
        return;
      }
      var ok := Invoke(PurgeConfig(ProjectList(dir), proyecto));
      if !ok {
        return Failed(ApacheFailure);
      }
      ok := Invoke(TrackerDeleteProject(proyecto));
      if !ok {
        return Failed(RedmineFailure);
      }
    }

    /** The loop of deleteRepositorioDeProyecto: the folder of every repository
        whose kind matches tipo ignoring case is removed if it exists. A removal
        may throw, which ends the loop. */
    method DeleteRepoFolders(repos: seq<Repo>, tipo: string, cn: Cn) returns (ok: bool)
      modifies this`folders, this`trace
      ensures ok ==> folders == old(folders) - Matching(repos, tipo, cn)
                     && trace == old(trace) + SweepSteps(repos, tipo, cn, old(folders))
      ensures !ok ==> && old(folders) - Matching(repos, tipo, cn) <= folders <= old(folders)
                      && old(trace) <= trace && |old(trace)| < |trace|
                      && trace[|old(trace)|..] <= SweepSteps(repos, tipo, cn, old(folders))
    {
      var i := 0;
      while i < |repos|
        invariant 0 <= i <= |repos|
        invariant folders == old(folders) - Matching(repos[..i], tipo, cn)
        invariant trace == old(trace) + SweepSteps(repos[..i], tipo, cn, old(folders))
      {
        var repo := repos[i];
        var f := Folder(repo.ruta, cn);
        SweepAdvance(repos, i, tipo, cn, old(folders), folders);
        if EqualsIgnoreCase(repo.tipo, tipo) && f in folders {
          ok := Invoke(DeleteFolder(f));
          if !ok {
            SweepStopped(repos, i, tipo, cn, old(folders), folders, old(trace));
            return;
          }
          folders := folders - {f};
        }
        i := i + 1;
      }
      assert repos[..i] == repos;
      ok := true;
    }

    method DeleteRepositorioDeProyecto(tipo: string, cn: Cn) returns (r: Outcome)
      requires Valid()
      modifies this`dir, this`folders, this`trace
      ensures Valid()
      ensures cn !in old(dir.projects) ==>
                r == Failed(NoSuchEntry) && dir == old(dir) && folders == old(folders) && trace == old(trace)
      ensures cn in old(dir.projects) && r == Failed(ConsoleFailure) ==>
                var repos := old(dir.projects[cn]).repos;
                && dir == old(dir)
                && old(folders) - Matching(repos, tipo, cn) <= folders <= old(folders)
                && old(trace) <= trace && |old(trace)| < |trace|
                && trace[|old(trace)|..] <= SweepSteps(repos, tipo, cn, old(folders))
      ensures cn in old(dir.projects) && r != Failed(ConsoleFailure) ==>
                var repos := old(dir.projects[cn]).repos;
                var swept := old(trace) + SweepSteps(repos, tipo, cn, old(folders)) + [DirDeleteRepo(tipo, cn)];
                && folders == old(folders) - Matching(repos, tipo, cn)
                && (r == Failed(NoSuchEntry) ==> !HasType(repos, tipo) && dir == old(dir) && trace == swept)
                && (r != Failed(NoSuchEntry) ==>
                      && dir == RemoveRepos(old(dir), tipo, cn).value && trace == swept + [Reconfigure(dir, cn)]
                      && (r.Done? || r == Failed(ApacheFailure)))
    {
      if cn !in dir.projects {
        return Failed(NoSuchEntry);
      }
      var proyecto := dir.projects[cn];
      var swept := DeleteRepoFolders(proyecto.repos, tipo, proyecto.cn);
      if !swept {
        return Failed(ConsoleFailure);
      }
      var repos := proyecto.repos;
      var res := RemoveRepos(dir, tipo, cn);
      if !HasType(repos, tipo) {
        var refused: bool :| true;
        if refused {
          res := Err(NoSuchEntry);
        }
      }
      r := Mutate(DirDeleteRepo(tipo, cn), res);
      if r.Failed? {
        return;
      }
      var ok := Invoke(Reconfigure(dir, cn));
      if !ok {
        return Failed(ApacheFailure);
      }
    }

    /** The loop of deleteUsuario: the user leaves every project it belongs to,
        in whatever order the directory lists them, stopping at the first failure.
        left is the set of projects the user is no longer a member of. */
    method LeaveProjects(uid: Uid) returns (r: Outcome, ghost removals: seq<Step>, ghost left: set<Cn>)
      requires Valid()
      modifies this`dir, this`trace
      ensures Valid()
      ensures dir.users == old(dir.users)
      ensures trace == old(trace) + removals && Cascade(removals, uid)
      ensures left <= MemberOf(old(dir), uid) && dir.projects == Expel(old(dir.projects), uid, left)
      ensures MemberOf(old(dir), uid) == {} ==> r.Done? && removals == []
      ensures r.Failed? ==> StoppedAt(removals, r)
      ensures r.Done? ==> left == MemberOf(old(dir), uid) && OncePerProject(removals, left) && Blocks(removals, uid, old(dir))
    {
      var proyectos := MemberOf(dir, uid);
      var todo := proyectos;
      ghost var done: set<Cn> := {};
      r := Done;
      removals := [];
      left := {};
      while todo != {}
        invariant todo !! done && todo + done == proyectos
        invariant Valid()
        invariant dir.users == old(dir.users)
        invariant dir.projects == Expel(old(dir.projects), uid, done)
        invariant trace == old(trace) + removals
        invariant Leaving(old(dir), uid, done, removals)
        invariant r.Done? && left == done
        decreases todo
      {
        var cn :| cn in todo;
        ghost var pre := dir;
        ghost var block;
        r, block := DeleteUsuarioDeProyecto(uid, cn);
        Regroup(old(trace), removals, block);
        if r.Failed? {
          assert RemoveMember(pre, uid, cn).Ok?;
          StoppedAtAppend(removals, block, r);
          CascadeAppend(removals, block, uid);
          ExpelStep(old(dir.projects), uid, done, cn);
          left := if dir == pre then done else done + {cn};
          return r, removals + block, left;
        }
        LeavingStep(old(dir), uid, done, removals, cn, pre, dir, block);
        removals := removals + block;
        todo := todo - {cn};
        done := done + {cn};
        left := done;
      }
    }

    method DeleteUsuario(uid: Uid) returns (r: Outcome, ghost removals: seq<Step>, ghost left: set<Cn>)
      requires Valid()
      modifies this`dir, this`trace
      ensures Valid()
      ensures Cascade(removals, uid)
      ensures MemberOf(old(dir), uid) == {} ==> removals == []
      ensures left <= MemberOf(old(dir), uid) && dir.projects == Expel(old(dir.projects), uid, left)
      ensures r.Done? ==>
                && uid in old(dir.users)
                && left == MemberOf(old(dir), uid)
                && OncePerProject(removals, MemberOf(old(dir), uid)) && Blocks(removals, uid, old(dir))
                && trace == old(trace) + removals + [DirDeleteUser(uid), TrackerDeleteUser(uid)]
                && dir.users == old(dir.users) - {uid}
                && forall c :: c in dir.projects ==> uid !in dir.projects[c].members && uid !in dir.projects[c].admins
      ensures r.Failed? ==>
                || (&& trace == old(trace) + removals && dir.users == old(dir.users)
                    && StoppedAt(removals, r))
                || (&& left == MemberOf(old(dir), uid)
                    && OncePerProject(removals, MemberOf(old(dir), uid)) && Blocks(removals, uid, old(dir))
                    && trace == old(trace) + removals + [DirDeleteUser(uid)]
                    && r == Failed(NoSuchEntry) && uid !in old(dir.users) && dir.users == old(dir.users))
                || (&& left == MemberOf(old(dir), uid)
                    && OncePerProject(removals, MemberOf(old(dir), uid)) && Blocks(removals, uid, old(dir))
                    && trace == old(trace) + removals + [DirDeleteUser(uid), TrackerDeleteUser(uid)]
                    && r == Failed(RedmineFailure) && dir.users == old(dir.users) - {uid})
    {
      r, removals, left := LeaveProjects(uid);
      if r.Failed? {
        return;
      }
      r := Mutate(DirDeleteUser(uid), RemoveUser(dir, uid));
      if r.Failed? {
        return;
      }
      var ok := Invoke(TrackerDeleteUser(uid));
      CascadeClearsUser(old(dir), uid);
      if !ok {
        return Failed(RedmineFailure), removals, left;
      }
    }

    /** The superadministrator inicializaForja creates. */
    function Superadmin(uid: Uid, pass: string): User
    {
      User(uid, SuperadminName, SuperadminSurname, SuperadminEmail, toMD5(pass))
    }

    /** The superadministrators' project inicializaForja creates: no repository. */
    function SuperadminGroup(uid: Uid): Project
    {
      NewProject(groupSuperadmin, SuperadminGroupDescription, uid, None)
    }

    /** The calls inicializaForja makes when none of them fails, with the
        arguments read back from the directory d. */
    function ForgeSteps(d: Store, uid: Uid, pass: string): seq<Step>
    {
      [DirAddUser(Superadmin(uid, pass)), TrackerCreateUser(Superadmin(uid, pass), pass),
       WriteJail(Uids(d)), RestartSsh, DirAddProject(SuperadminGroup(uid)),
       Configure(ProjectList(d), SuperadminGroup(uid), Uids(d)),
       TrackerCreateProject(SuperadminGroup(uid)), TrackerHidePublic(groupSuperadmin)]
    }

    /** How far inicializaForja got once its email check passed for a fresh
        uid: the user is stored; the calls issued are a prefix of ForgeSteps
        holding at least the insert and the tracker call, and all of it when
        the call completes; a failure is that of the last call issued, except
        ProjectExists, which is raised exactly when the cn was taken; and the
        project is stored exactly when its insert was issued with the cn free. */
    ghost predicate ForgeProgress(d0: Store, t0: seq<Step>, d: Store, t: seq<Step>, r: Outcome, uid: Uid, pass: string)
    {
      var issued := |t| - |t0|;
      && d.users == d0.users[uid := Superadmin(uid, pass)]
      && 1 < issued <= |ForgeSteps(d, uid, pass)|
      && t == t0 + ForgeSteps(d, uid, pass)[..issued]
      && (r.Done? ==> issued == |ForgeSteps(d, uid, pass)|)
      && (r.Failed? && issued != 5 ==> r.error == FailureOf(ForgeSteps(d, uid, pass)[issued - 1]))
      && (issued <= 4 ==> r.Failed? && d.projects == d0.projects)
      && (issued == 5 ==> groupSuperadmin in d0.projects)
      && (issued > 4 && groupSuperadmin in d0.projects ==>
            issued == 5 && r == Failed(ProjectExists) && d.projects == d0.projects)
      && (issued > 4 && groupSuperadmin !in d0.projects ==>
            d.projects == d0.projects[groupSuperadmin := SuperadminGroup(uid)])
    }

    /** addUsuario stored the superadministrator and then threw. */
    lemma UserStepStopped(d0: Store, t0: seq<Step>, d: Store, t: seq<Step>, r: Outcome, uid: Uid, pass: string)
      requires r.Failed?
      requires d == d0.(users := d0.users[uid := Superadmin(uid, pass)])
      requires Ran(t0 + [DirAddUser(Superadmin(uid, pass))], t,
                   [TrackerCreateUser(Superadmin(uid, pass), pass), WriteJail(Uids(d)), RestartSsh], r)
      ensures ForgeProgress(d0, t0, d, t, r, uid, pass)
    {
      var plan := ForgeSteps(d, uid, pass);
      assert [DirAddUser(Superadmin(uid, pass))] == plan[..1];
      assert plan[1..4] == [TrackerCreateUser(Superadmin(uid, pass), pass), WriteJail(Uids(d)), RestartSsh];
      RanWithin(t0, plan, 0, 4, t, r);
    }

    /** addUsuario completed, and addProyecto then ran to its end or threw. */
    lemma ProjectStepRan(d0: Store, t0: seq<Step>, d1: Store, t1: seq<Step>, d: Store, t: seq<Step>, r: Outcome,
                         uid: Uid, pass: string)
      requires d1 == d0.(users := d0.users[uid := Superadmin(uid, pass)])
      requires Ran(t0 + [DirAddUser(Superadmin(uid, pass))], t1,
                   [TrackerCreateUser(Superadmin(uid, pass), pass), WriteJail(Uids(d1)), RestartSsh], Done)
      requires groupSuperadmin in d1.projects ==>
                 r == Failed(ProjectExists) && d == d1 && t == t1 + [DirAddProject(SuperadminGroup(uid))]
      requires groupSuperadmin !in d1.projects ==>
                 && d == d1.(projects := d1.projects[groupSuperadmin := SuperadminGroup(uid)])
                 && Ran(t1 + [DirAddProject(SuperadminGroup(uid))], t,
                        [Configure(ProjectList(d), SuperadminGroup(uid), Uids(d)),
                         TrackerCreateProject(SuperadminGroup(uid)), TrackerHidePublic(groupSuperadmin)], r)
      ensures ForgeProgress(d0, t0, d, t, r, uid, pass)
      ensures r.Done? ==> t == t0 + ForgeSteps(d, uid, pass)
    {
      var plan := ForgeSteps(d, uid, pass);
      assert Uids(d) == Uids(d1);
      assert [DirAddUser(Superadmin(uid, pass))] == plan[..1];
      assert plan[1..4] == [TrackerCreateUser(Superadmin(uid, pass), pass), WriteJail(Uids(d)), RestartSsh];
      RanWithin(t0, plan, 0, 4, t1, Done);
      assert t1 + [DirAddProject(SuperadminGroup(uid))] == t0 + plan[..5];
      if groupSuperadmin !in d1.projects {
        assert plan[5..8] == [Configure(ProjectList(d), SuperadminGroup(uid), Uids(d)),
                              TrackerCreateProject(SuperadminGroup(uid)), TrackerHidePublic(groupSuperadmin)];
        RanWithin(t0, plan, 4, 8, t, r);
      }
    }

    method InicializaForja(uid: Uid, pass: string) returns (r: Outcome, ghost answer: EmailList)
      requires Valid()
      modifies this`dir, this`trace
      ensures Valid()
      ensures answer.Listed? ==> answer.emails == Emails(old(dir))
      ensures answer.Listed? && SuperadminEmail in answer.emails ==>
                r == Failed(UserRejected) && dir == old(dir) && trace == old(trace)
      ensures CreateEmailCheck(answer, SuperadminEmail).Failed? ==>
                r == Failed(UserRejected) && dir == old(dir) && trace == old(trace)
      ensures old(trace) <= trace
      ensures CreateEmailCheck(answer, SuperadminEmail).Done? && uid in old(dir.users) ==>
                && r == Failed(DirectoryFailure) && dir == old(dir)
                && trace == old(trace) + [DirAddUser(Superadmin(uid, pass))]
      ensures CreateEmailCheck(answer, SuperadminEmail).Done? && uid !in old(dir.users) ==>
                ForgeProgress(old(dir), old(trace), dir, trace, r, uid, pass)
      ensures DirAddProject(SuperadminGroup(uid)) in trace[|old(trace)|..] ==>
                dir.users == old(dir.users)[uid := Superadmin(uid, pass)]
      ensures r.Done? ==>
                && dir.users == old(dir.users)[uid := Superadmin(uid, pass)]
                && dir.projects == old(dir.projects)[groupSuperadmin := SuperadminGroup(uid)]
                && dir.projects[groupSuperadmin].admins == {uid}
                && dir.projects[groupSuperadmin].repos == []
                && trace == old(trace) + ForgeSteps(dir, uid, pass)
    {
      r, answer := AddUsuario(uid, SuperadminName, SuperadminSurname, SuperadminEmail, pass);
      if r.Failed? {
        if CreateEmailCheck(answer, SuperadminEmail).Done? && uid !in old(dir.users) {
          UserStepStopped(old(dir), old(trace), dir, trace, r, uid, pass);
        }
        return;
      }
      ghost var midDir, mid := dir, trace;
      r := AddProyecto(groupSuperadmin, SuperadminGroupDescription, uid, None);
      ProjectStepRan(old(dir), old(trace), midDir, mid, dir, trace, r, uid, pass);
    }
  }
}

=== FILE: directory.dfy ===
/** The directory store (GestorLDAP) as the orchestrator sees it: the records it
    holds, the lists it answers with, and the mutations the orchestrator asks of
    it. GestorLDAP itself is not part of this model; the mutations below state
    the contract the orchestrator relies on (uniqueness of uid and cn, not-found
    for absent entries, administrators are members). */
module Directory {
  import opened Errors
  import opened Text

  type Uid = string
  type Cn = string

  /** Usuario: the stored password is whatever the caller hands in (a digest for addUsuario). */
  datatype User = User(uid: Uid, nombre: string, apellidos: string, email: string, pass: string)

  /** Repositorio: its kind is a free string that the orchestrator compares ignoring case. */
  datatype Repo = Repo(tipo: string, esPublico: bool, ruta: string)

  /** Proyecto */
  datatype Project = Project(cn: Cn, description: string, admins: set<Uid>, members: set<Uid>, repos: seq<Repo>)

  datatype Store = Store(users: map<Uid, User>, projects: map<Cn, Project>)

  /** What getListaEmailsUsuarios gives back: an exception, a null list, or the list. */
  datatype EmailList = Unreadable | Null | Listed(emails: set<string>)

  /** Records are filed under their own key, and every administrator is a member. */
  ghost predicate Consistent(d: Store)
  {
    && (forall u :: u in d.users ==> d.users[u].uid == u)
    && (forall c :: c in d.projects ==> d.projects[c].cn == c && d.projects[c].admins <= d.projects[c].members)
  }

  /** No two users share an email (the tracker keys users by email). */
  ghost predicate UniqueEmails(users: map<Uid, User>)
  {
    forall a, b :: a in users && b in users && users[a].email == users[b].email ==> a == b
  }

  // The lists the orchestrator reads back (getListaUIdsUsuario, getListaEmailsUsuarios,
  // getListaProyectos, getListaProyectosMiembroXUid); their order is not modelled.

  function Uids(d: Store): set<Uid>
  {
    d.users.Keys
  }

  function Emails(d: Store): set<string>
  {
    set u | u in d.users :: d.users[u].email
  }

  function ProjectList(d: Store): set<Project>
  {
    d.projects.Values
  }

  function MemberOf(d: Store, uid: Uid): set<Cn>
  {
    set c | c in d.projects && uid in d.projects[c].members
  }

  /** new Proyecto(cn, description, primerAdmin, repo): the creator is the sole
      administrator (and so a member); a null repository means none. */
  function NewProject(cn: Cn, description: string, primerAdmin: Uid, repo: Option<Repo>): (p: Project)
    ensures p.cn == cn && p.admins == {primerAdmin} && p.admins <= p.members
    ensures repo.None? ==> p.repos == []
    ensures repo.Some? ==> |p.repos| == 1 && repo.value in p.repos
  {
    Project(cn, description, {primerAdmin}, {primerAdmin}, if repo.Some? then [repo.value] else [])
  }

  /** The project without uid among its members and administrators. */
  function Strip(p: Project, uid: Uid): Project
  {
    p.(members := p.members - {uid}, admins := p.admins - {uid})
  }

  /** The repositories whose kind does not match tipo. */
  function KeepOtherTypes(repos: seq<Repo>, tipo: string): (kept: seq<Repo>)
    ensures |kept| <= |repos|
    ensures forall r :: r in kept <==> r in repos && !EqualsIgnoreCase(r.tipo, tipo)
  {
    if repos == [] then []
    else if EqualsIgnoreCase(repos[0].tipo, tipo) then KeepOtherTypes(repos[1..], tipo)
    else [repos[0]] + KeepOtherTypes(repos[1..], tipo)
  }

  predicate HasType(repos: seq<Repo>, tipo: string)
  {
    exists r :: r in repos && EqualsIgnoreCase(r.tipo, tipo)
  }

  // Mutations. Each one either fails and leaves the store alone, or succeeds;
  // every success keeps the store consistent.

  function AddProject(d: Store, p: Project): (r: Result<Store>)
    ensures r.Ok? ==> r.value.users == d.users && r.value.projects.Keys == d.projects.Keys + {p.cn}
    ensures Consistent(d) && p.admins <= p.members && r.Ok? ==> Consistent(r.value)
  {
    if p.cn in d.projects then Err(ProjectExists) else Ok(d.(projects := d.projects[p.cn := p]))
  }

  function AddUser(d: Store, u: User): (r: Result<Store>)
    ensures r.Ok? ==> r.value.projects == d.projects && r.value.users.Keys == d.users.Keys + {u.uid}
    ensures Consistent(d) && r.Ok? ==> Consistent(r.value)
  {
    if u.uid in d.users then Err(DirectoryFailure) else Ok(d.(users := d.users[u.uid := u]))
  }

  function AddMember(d: Store, cn: Cn, uid: Uid): (r: Result<Store>)
    ensures r.Ok? ==> r.value.users == d.users && r.value.projects.Keys == d.projects.Keys
    ensures Consistent(d) && r.Ok? ==> Consistent(r.value)
  {
    if cn !in d.projects || uid !in d.users then Err(NoSuchEntry)
    else
      var p := d.projects[cn];
      Ok(d.(projects := d.projects[cn := p.(members := p.members + {uid})]))
  }

  function AddAdmin(d: Store, cn: Cn, uid: Uid): (r: Result<Store>)
    ensures r.Ok? ==> r.value.users == d.users && r.value.projects.Keys == d.projects.Keys
    ensures Consistent(d) && r.Ok? ==> Consistent(r.value)
  {
    if cn !in d.projects || uid !in d.users then Err(NoSuchEntry)
    else
      var p := d.projects[cn];
      Ok(d.(projects := d.projects[cn := p.(admins := p.admins + {uid}, members := p.members + {uid})]))
  }

  function AddRepo(d: Store, repo: Repo, cn: Cn): (r: Result<Store>)
    ensures r.Ok? ==> r.value.users == d.users && r.value.projects.Keys == d.projects.Keys && cn in d.projects
    ensures Consistent(d) && r.Ok? ==> Consistent(r.value)
  {
    if cn !in d.projects then Err(NoSuchEntry)
    else
      var p := d.projects[cn];
      Ok(d.(projects := d.projects[cn := p.(repos := p.repos + [repo])]))
  }

  function EditUser(d: Store, u: User): (r: Result<Store>)
    ensures r.Ok? ==> r.value.projects == d.projects && r.value.users.Keys == d.users.Keys
    ensures Consistent(d) && r.Ok? ==> Consistent(r.value)
  {
    if u.uid !in d.users then Err(NoSuchEntry) else Ok(d.(users := d.users[u.uid := u]))
  }

  function RemoveMember(d: Store, uid: Uid, cn: Cn): (r: Result<Store>)
    ensures r.Ok? ==> r.value.users == d.users && r.value.projects.Keys == d.projects.Keys && cn in d.projects
    ensures Consistent(d) && r.Ok? ==> Consistent(r.value)
  {
    if cn !in d.projects || uid !in d.projects[cn].members then Err(NoSuchEntry)
    else Ok(d.(projects := d.projects[cn := Strip(d.projects[cn], uid)]))
  }

  function RemoveAdmin(d: Store, uid: Uid, cn: Cn): (r: Result<Store>)
    ensures r.Ok? ==> r.value.users == d.users && r.value.projects.Keys == d.projects.Keys && cn in d.projects
    ensures Consistent(d) && r.Ok? ==> Consistent(r.value)
  {
    if cn !in d.projects || uid !in d.projects[cn].admins then Err(NoSuchEntry)
    else
      var p := d.projects[cn];
      Ok(d.(projects := d.projects[cn := p.(admins := p.admins - {uid})]))
  }

  function RemoveRepos(d: Store, tipo: string, cn: Cn): (r: Result<Store>)
    ensures r.Ok? ==> r.value.users == d.users && r.value.projects.Keys == d.projects.Keys && cn in d.projects
    ensures Consistent(d) && r.Ok? ==> Consistent(r.value)
  {
    if cn !in d.projects then Err(NoSuchEntry)
    else
      var p := d.projects[cn];
      Ok(d.(projects := d.projects[cn := p.(repos := KeepOtherTypes(p.repos, tipo))]))
  }

  function RemoveProject(d: Store, cn: Cn): (r: Result<Store>)
    ensures r.Ok? ==> r.value.users == d.users && r.value.projects.Keys == d.projects.Keys - {cn}
    ensures Consistent(d) && r.Ok? ==> Consistent(r.value)
  {
    if cn !in d.projects then Err(NoSuchEntry) else Ok(d.(projects := d.projects - {cn}))
  }

  function RemoveUser(d: Store, uid: Uid): (r: Result<Store>)
    ensures r.Ok? ==> r.value.projects == d.projects && r.value.users.Keys == d.users.Keys - {uid}
    ensures Consistent(d) && r.Ok? ==> Consistent(r.value)
  {
    if uid !in d.users then Err(NoSuchEntry) else Ok(d.(users := d.users - {uid}))
  }
}

=== FILE: errors.dfy ===
/** Values shared by every part of the model: optional values, results of
    directory calls, and the exceptions the orchestrator lets escape. */
module Errors {

  datatype Option<T> = None | Some(value: T)

  /** One constructor per kind of exception that leaves API_Abierta. */
  datatype Error =
    | UserRejected        // ExcepcionUsuario: duplicate email, or the email list could not be read
    | ProjectExists       // ExcepcionProyecto: the directory already holds that cn
    | NoSuchEntry         // ExcepcionLDAPNoExisteRegistro
    | SoleAdministrator   // ExcepcionLDAPAdministradorUnico
    | DirectoryFailure    // ExcepcionGestorLDAP
    | ApacheFailure       // ExcepcionGeneradorFicherosApache / ExcepcionConsola from the Apache configurator
    | ConsoleFailure      // ExcepcionConsola while removing a repository folder
    | RedmineFailure      // ExcepcionGestorRedmine
    | JailFailure         // RuntimeException wrapping a failure to write the SSH-jail file
    | SshRestartFailure   // RuntimeException wrapping a failed SSH restart
    | NullPointer         // NullPointerException
    | IllegalArgument     // IllegalArgumentException

  /** The answer of a directory call that yields a value or throws. */
  datatype Result<T> = Ok(value: T) | Err(error: Error)

  /** How a void operation of the orchestrator ends: normally or by an exception. */
  datatype Outcome = Done | Failed(error: Error)
}

=== FILE: rules.dfy ===
/** The decisions API_Abierta takes itself, as functions of what it reads from
    the directory: the two email checks, the repository-folder sweep and the
    membership cascade of a user deletion. */
module Rules {
  import opened Errors
  import opened Text
  import opened Directory
  import opened Steps

  // ---------------------------------------------------------------------------
  // Email checks

  /** addUsuario's check: an unreadable list is reported as ExcepcionUsuario, a
      null list lets every email through, a listed email is a duplicate. */
  function CreateEmailCheck(answer: EmailList, email: string): (o: Outcome)
    ensures o == Done || o == Failed(UserRejected)
    ensures answer.Listed? && email in answer.emails ==> o.Failed?
    ensures answer.Null? ==> o.Done?
  {
    match answer
    case Unreadable => Failed(UserRejected)
    case Null => Done
    case Listed(emails) => if email in emails then Failed(UserRejected) else Done
  }

  /** editUsuario's check: the email is refused only when it is listed and the
      user's own current email is a different one. The list is not null-checked. */
  function EditEmailCheck(answer: EmailList, d: Store, u: User): (o: Outcome)
    ensures answer.Listed? && o.Failed? ==> u.email in answer.emails
    ensures answer.Listed? && u.uid in d.users && d.users[u.uid].email == u.email ==> o.Done?
    ensures answer.Listed? && u.uid in d.users && u.email in answer.emails && d.users[u.uid].email != u.email
            ==> o == Failed(UserRejected)
  {
    match answer
    case Unreadable => Failed(UserRejected)
    case Null => Failed(NullPointer)
    case Listed(emails) =>
      if u.email !in emails then Done
      else if u.uid !in d.users then Failed(NoSuchEntry)
      else if d.users[u.uid].email != u.email then Failed(UserRejected)
      else Done
  }

  /** Against the directory's own list, creation is refused exactly when some
      user (whatever its uid) already has the email. */
  lemma CreateEmailCheckMeaning(d: Store, email: string)
    ensures CreateEmailCheck(Listed(Emails(d)), email) == Failed(UserRejected)
            <==> exists v :: v in d.users && d.users[v].email == email
    ensures CreateEmailCheck(Listed(Emails(d)), email) in {Done, Failed(UserRejected)}
    ensures CreateEmailCheck(Null, email) == Done
    ensures CreateEmailCheck(Unreadable, email) == Failed(UserRejected)
  {
    if email in Emails(d) {
      var v :| v in d.users && d.users[v].email == email;
    }
  }

  /** A creation that passes the check against the directory's own list keeps
      emails unique. */
  lemma CreateCheckKeepsEmailsUnique(d: Store, u: User)
    requires UniqueEmails(d.users)
    requires CreateEmailCheck(Listed(Emails(d)), u.email) == Done
    requires u.uid !in d.users
    ensures UniqueEmails(d.users[u.uid := u])
  {
    forall v | v in d.users
      ensures d.users[v].email != u.email
    {
      assert d.users[v].email in Emails(d);
    }
  }

  /** For an existing user in a directory with unique emails, the edit is
      refused exactly when ANOTHER user holds the new email; keeping one's own
      email passes. */
  lemma EditEmailCheckMeaning(d: Store, u: User)
    requires UniqueEmails(d.users)
    requires u.uid in d.users
    ensures EditEmailCheck(Listed(Emails(d)), d, u)
            == if exists v :: v in d.users && v != u.uid && d.users[v].email == u.email
               then Failed(UserRejected) else Done
  {
    if exists v :: v in d.users && v != u.uid && d.users[v].email == u.email {
      var v :| v in d.users && v != u.uid && d.users[v].email == u.email;
      assert u.email in Emails(d);
    } else if u.email in Emails(d) {
      var v :| v in d.users && d.users[v].email == u.email;
      assert v == u.uid;
    }
  }

  /** An edit that passes the check keeps emails unique. */
  lemma EditCheckKeepsEmailsUnique(d: Store, u: User)
    requires UniqueEmails(d.users)
    requires u.uid in d.users
    requires EditEmailCheck(Listed(Emails(d)), d, u) == Done
    ensures UniqueEmails(d.users[u.uid := u])
  {
    EditEmailCheckMeaning(d, u);
  }

  // ---------------------------------------------------------------------------
  // Repository-folder sweep of deleteRepositorioDeProyecto

  /** The folders of the repositories whose kind matches tipo ignoring case. */
  function Matching(repos: seq<Repo>, tipo: string, cn: Cn): set<Folder>
  {
    set r | r in repos && EqualsIgnoreCase(r.tipo, tipo) :: Folder(r.ruta, cn)
  }

  lemma MatchingSnoc(repos: seq<Repo>, r: Repo, tipo: string, cn: Cn)
    ensures Matching(repos + [r], tipo, cn)
            == Matching(repos, tipo, cn) + (if EqualsIgnoreCase(r.tipo, tipo) then {Folder(r.ruta, cn)} else {})
  {
    var whole := repos + [r];
    forall x | x in whole
      ensures x in repos || x == r
    {
    }
    forall f | f in Matching(repos, tipo, cn)
      ensures f in Matching(whole, tipo, cn)
    {
      var x :| x in repos && EqualsIgnoreCase(x.tipo, tipo) && f == Folder(x.ruta, cn);
      assert x in whole;
    }
    if EqualsIgnoreCase(r.tipo, tipo) {
      assert r in whole;
    }
  }

  lemma MatchingPrefix(repos: seq<Repo>, i: nat, tipo: string, cn: Cn)
    requires i <= |repos|
    ensures Matching(repos[..i], tipo, cn) <= Matching(repos, tipo, cn)
  {
    forall f | f in Matching(repos[..i], tipo, cn)
      ensures f in Matching(repos, tipo, cn)
    {
      var x :| x in repos[..i] && EqualsIgnoreCase(x.tipo, tipo) && f == Folder(x.ruta, cn);
      assert x in repos;
    }
  }

  /** Every step deletes an existing folder of project cn. */
  predicate DeletesOnly(steps: seq<Step>, folders: set<Folder>, cn: Cn)
  {
    forall s :: s in steps ==> s.DeleteFolder? && s.folder in folders && s.folder.cn == cn
  }

  /** The folder deletions the loop performs, in order: a repository's folder is
      deleted when its kind matches and the folder still exists (a folder shared
      by two matching repositories is deleted once). */
  function SweepSteps(repos: seq<Repo>, tipo: string, cn: Cn, folders: set<Folder>): (steps: seq<Step>)
    ensures |steps| <= |repos|
    ensures DeletesOnly(steps, folders, cn)
  {
    if repos == [] then []
    else
      var init := repos[..|repos| - 1];
      var last := repos[|repos| - 1];
      var f := Folder(last.ruta, cn);
      SweepSteps(init, tipo, cn, folders)
      + (if EqualsIgnoreCase(last.tipo, tipo) && f in folders - Matching(init, tipo, cn) then [DeleteFolder(f)] else [])
  }

  /** One turn of the sweep loop, from the folders left after repos[..i]: the
      folder of repos[i] is deleted when its kind matches and it is still
      there, and it no longer counts as left once its kind matches. */
  lemma SweepAdvance(repos: seq<Repo>, i: nat, tipo: string, cn: Cn, start: set<Folder>, left: set<Folder>)
    requires i < |repos| && left == start - Matching(repos[..i], tipo, cn)
    ensures var f := Folder(repos[i].ruta, cn);
            && SweepSteps(repos[..i + 1], tipo, cn, start)
               == SweepSteps(repos[..i], tipo, cn, start)
                  + (if EqualsIgnoreCase(repos[i].tipo, tipo) && f in left then [DeleteFolder(f)] else [])
            && start - Matching(repos[..i + 1], tipo, cn)
               == (if EqualsIgnoreCase(repos[i].tipo, tipo) then left - {f} else left)
  {
    assert repos[..i + 1] == repos[..i] + [repos[i]];
    assert repos[..i + 1][..i] == repos[..i];
    MatchingSnoc(repos[..i], repos[i], tipo, cn);
  }

  /** The sweep loop stopped by a failed deletion of the folder of repos[i]:
      the calls issued are a prefix of the whole sweep, and the folders left
      lie between the whole sweep's result and the start. */
  lemma SweepStopped(repos: seq<Repo>, i: nat, tipo: string, cn: Cn, start: set<Folder>, left: set<Folder>,
                     before: seq<Step>)
    requires i < |repos| && left == start - Matching(repos[..i], tipo, cn)
    requires EqualsIgnoreCase(repos[i].tipo, tipo) && Folder(repos[i].ruta, cn) in left
    ensures start - Matching(repos, tipo, cn) <= left <= start
    ensures var issued := before + SweepSteps(repos[..i], tipo, cn, start) + [DeleteFolder(Folder(repos[i].ruta, cn))];
            && before <= issued && |before| < |issued|
            && issued[|before|..] <= SweepSteps(repos, tipo, cn, start)
  {
    SweepAdvance(repos, i, tipo, cn, start, left);
    SweepStepsPrefix(repos, i + 1, tipo, cn, start);
    MatchingPrefix(repos, i, tipo, cn);
    var issued := before + SweepSteps(repos[..i], tipo, cn, start) + [DeleteFolder(Folder(repos[i].ruta, cn))];
    assert issued[|before|..] == SweepSteps(repos[..i + 1], tipo, cn, start);
  }

  /** Exactly the existing folders of matching repositories are deleted, each
      once, and nothing else is touched. */
  lemma {:induction false} SweepStepsExact(repos: seq<Repo>, tipo: string, cn: Cn, folders: set<Folder>)
    ensures forall k :: 0 <= k < |SweepSteps(repos, tipo, cn, folders)| ==> SweepSteps(repos, tipo, cn, folders)[k].DeleteFolder?
    ensures forall f :: DeleteFolder(f) in SweepSteps(repos, tipo, cn, folders)
                        <==> f in folders && f in Matching(repos, tipo, cn)
    ensures forall i, j :: 0 <= i < j < |SweepSteps(repos, tipo, cn, folders)|
                           ==> SweepSteps(repos, tipo, cn, folders)[i] != SweepSteps(repos, tipo, cn, folders)[j]
  {
    if repos != [] {
      var init := repos[..|repos| - 1];
      var last := repos[|repos| - 1];
      assert repos == init + [last];
      SweepStepsExact(init, tipo, cn, folders);
      MatchingSnoc(init, last, tipo, cn);
    }
  }

  /** Sweeping a prefix of the repositories issues a prefix of the deletions. */
  lemma {:induction false} SweepStepsPrefix(repos: seq<Repo>, i: nat, tipo: string, cn: Cn, folders: set<Folder>)
    requires i <= |repos|
    ensures SweepSteps(repos[..i], tipo, cn, folders) <= SweepSteps(repos, tipo, cn, folders)
  {
    if i < |repos| {
      var init := repos[..|repos| - 1];
      assert repos[..i] == init[..i];
      SweepStepsPrefix(init, i, tipo, cn, folders);
    } else {
      assert repos[..i] == repos;
    }
  }

  // ---------------------------------------------------------------------------
  // Membership cascade of deleteUsuario

  /** The projects after removing uid from each project named in cns. */
  function Expel(projects: map<Cn, Project>, uid: Uid, cns: set<Cn>): map<Cn, Project>
  {
    map c | c in projects :: if c in cns then Strip(projects[c], uid) else projects[c]
  }

  lemma ExpelStep(projects: map<Cn, Project>, uid: Uid, done: set<Cn>, cn: Cn)
    requires cn in projects && cn !in done
    ensures Expel(projects, uid, done + {cn})
            == Expel(projects, uid, done)[cn := Strip(Expel(projects, uid, done)[cn], uid)]
  {
  }

  /** Once uid is removed from every project it is a member of, no project
      names it as member or administrator, and nobody else's roles changed. */
  lemma CascadeClearsUser(d: Store, uid: Uid)
    requires Consistent(d)
    ensures Expel(d.projects, uid, MemberOf(d, uid)).Keys == d.projects.Keys
    ensures forall c :: c in Expel(d.projects, uid, MemberOf(d, uid)) ==>
              && uid !in Expel(d.projects, uid, MemberOf(d, uid))[c].members
              && uid !in Expel(d.projects, uid, MemberOf(d, uid))[c].admins
              && Expel(d.projects, uid, MemberOf(d, uid))[c].members == d.projects[c].members - {uid}
              && Expel(d.projects, uid, MemberOf(d, uid))[c].admins == d.projects[c].admins - {uid}
  {
    var e := Expel(d.projects, uid, MemberOf(d, uid));
    forall c | c in e
      ensures e[c].members == d.projects[c].members - {uid} && e[c].admins == d.projects[c].admins - {uid}
    {
      if c !in MemberOf(d, uid) {
        assert uid !in d.projects[c].members;
        assert uid !in d.projects[c].admins;
      }
    }
  }

  /** A step issued by deleteUsuarioDeProyecto on behalf of uid: its directory
      removal, the regeneration of a project's config that no longer lists uid
      as a member, or its tracker removal. */
  predicate RemovalStep(s: Step, uid: Uid)
  {
    || (s.DirDeleteMember? && s.uid == uid)
    || (s.Configure? && uid !in s.target.members)
    || (s.TrackerDeleteMember? && s.uid == uid)
  }

  predicate Cascade(steps: seq<Step>, uid: Uid)
  {
    forall k :: 0 <= k < |steps| ==> RemovalStep(steps[k], uid)
  }

  lemma CascadeAppend(a: seq<Step>, b: seq<Step>, uid: Uid)
    requires Cascade(a, uid) && Cascade(b, uid)
    ensures Cascade(a + b, uid)
  {
    forall k | 0 <= k < |a + b|
      ensures RemovalStep((a + b)[k], uid)
    {
      if k >= |a| {
        assert (a + b)[k] == b[k - |a|];
      }
    }
  }

  /** The three calls deleteUsuarioDeProyecto makes for a project. */
  datatype Call = Leave | Reconfig | Untrack

  /** The project a step concerns, when it is a call of the given kind. */
  function Concerns(s: Step, call: Call): multiset<Cn>
  {
    match call
    case Leave => if s.DirDeleteMember? then multiset{s.cn} else multiset{}
    case Reconfig => if s.Configure? then multiset{s.target.cn} else multiset{}
    case Untrack => if s.TrackerDeleteMember? then multiset{s.cn} else multiset{}
  }

  /** The projects, with multiplicity, for which a call of the given kind was issued. */
  function Tally(steps: seq<Step>, call: Call): multiset<Cn>
  {
    if steps == [] then multiset{} else Concerns(steps[0], call) + Tally(steps[1..], call)
  }

  /** Each of the three calls was issued exactly once for each project of cns,
      and for no other project. */
  ghost predicate OncePerProject(steps: seq<Step>, cns: set<Cn>)
  {
    forall call, c :: Tally(steps, call)[c] == if c in cns then 1 else 0
  }

  lemma {:induction false} TallyAppend(a: seq<Step>, b: seq<Step>, call: Call)
    ensures Tally(a + b, call) == Tally(a, call) + Tally(b, call)
  {
    if a == [] {
      assert a + b == b;
    } else {
      assert (a + b)[0] == a[0];
      assert (a + b)[1..] == a[1..] + b;
      TallyAppend(a[1..], b, call);
    }
  }

  /** The three calls deleteUsuarioDeProyecto makes for one project of the
      store d0, in order: the directory removal, the config regeneration for
      that project as d0 holds it less uid, with d0's uids, and the tracker
      removal. */
  predicate FullBlock(b: seq<Step>, uid: Uid, d0: Store)
  {
    && |b| == 3
    && b[0].DirDeleteMember? && b[0].uid == uid && b[0].cn in d0.projects
    && b[1].Configure? && b[1].target.cn == b[0].cn
    && b[1].target == Strip(d0.projects[b[0].cn], uid) && b[1].uids == Uids(d0)
    && b[2] == TrackerDeleteMember(uid, b[0].cn)
  }

  /** The steps are whole blocks for projects of d0, one project after
      another: every third position starts a full block. */
  predicate Blocks(steps: seq<Step>, uid: Uid, d0: Store)
  {
    && |steps| % 3 == 0
    && forall i | 0 <= i < |steps| && i % 3 == 0 :: FullBlock(steps[i..i + 3], uid, d0)
  }

  /** One more whole block keeps the steps whole blocks. */
  lemma BlocksSnoc(steps: seq<Step>, block: seq<Step>, uid: Uid, d0: Store)
    requires Blocks(steps, uid, d0) && FullBlock(block, uid, d0)
    ensures Blocks(steps + block, uid, d0)
  {
    var all := steps + block;
    forall i | 0 <= i < |all| && i % 3 == 0
      ensures FullBlock(all[i..i + 3], uid, d0)
    {
      if i < |steps| {
        assert all[i..i + 3] == steps[i..i + 3];
      } else {
        assert all[i..i + 3] == block;
      }
    }
  }

  /** A block for a project that a later store d still holds as d0 did, with
      the same users, is a block for d0 as well. */
  lemma FullBlockRebase(b: seq<Step>, uid: Uid, d: Store, d0: Store)
    requires FullBlock(b, uid, d) && d.users == d0.users
    requires b[0].cn in d0.projects && d.projects[b[0].cn] == d0.projects[b[0].cn]
    ensures FullBlock(b, uid, d0)
  {
  }

  /** A run of removals that failed: the last call issued is the one that
      threw, and the error is that call's (the directory refusing to remove
      the last administrator, the config generator, or the tracker). */
  predicate StoppedAt(steps: seq<Step>, r: Outcome)
  {
    && steps != []
    && (|| (r == Failed(SoleAdministrator) && steps[|steps| - 1].DirDeleteMember?)
        || (r == Failed(ApacheFailure) && steps[|steps| - 1].Configure?)
        || (r == Failed(RedmineFailure) && steps[|steps| - 1].TrackerDeleteMember?))
  }

  /** Removals issued before a failed run do not change which call failed. */
  lemma StoppedAtAppend(earlier: seq<Step>, run: seq<Step>, r: Outcome)
    requires StoppedAt(run, r)
    ensures StoppedAt(earlier + run, r)
  {
    assert (earlier + run)[|earlier + run| - 1] == run[|run| - 1];
  }

  /** The removals deleteUsuario has issued after leaving the projects done
      of the store d0 in full: only removals on behalf of uid, each of the
      three calls once per project done, in whole blocks. */
  ghost predicate Leaving(d0: Store, uid: Uid, done: set<Cn>, removals: seq<Step>)
  {
    && Cascade(removals, uid)
    && OncePerProject(removals, done)
    && Blocks(removals, uid, d0)
    && (done == {} ==> removals == [])
  }

  /** One more project left in full: the removals grow by its block, and the
      directory holds the user removed from that project as well. */
  lemma LeavingStep(d0: Store, uid: Uid, done: set<Cn>, removals: seq<Step>, cn: Cn,
                    pre: Store, post: Store, block: seq<Step>)
    requires Leaving(d0, uid, done, removals) && cn !in done
    requires cn in d0.projects && pre.users == d0.users && pre.projects == Expel(d0.projects, uid, done)
    requires RemoveMember(pre, uid, cn).Ok? && post == RemoveMember(pre, uid, cn).value
    requires Cascade(block, uid) && OncePerProject(block, {cn}) && FullBlock(block, uid, pre) && block[0].cn == cn
    ensures Leaving(d0, uid, done + {cn}, removals + block)
    ensures post.projects == Expel(d0.projects, uid, done + {cn})
  {
    CascadeAppend(removals, block, uid);
    OncePerProjectStep(removals, block, done, cn);
    FullBlockRebase(block, uid, pre, d0);
    BlocksSnoc(removals, block, uid, d0);
    ExpelStep(d0.projects, uid, done, cn);
  }

  /** What deleteUsuarioDeProyecto issues when it stops after k of the steps
      that follow its directory mutation: only removals on behalf of uid, and,
      when it runs to the end, a full block for cn of the store d0 it started
      from. */
  lemma RemovalBlock(uid: Uid, cn: Cn, conf: Step, d0: Store, k: nat)
    requires cn in d0.projects && conf.Configure? && conf.target.cn == cn
    requires conf.target == Strip(d0.projects[cn], uid) && conf.uids == Uids(d0) && k <= 2
    ensures Cascade([DirDeleteMember(uid, cn)] + [conf, TrackerDeleteMember(uid, cn)][..k], uid)
    ensures k == 2 ==> OncePerProject([DirDeleteMember(uid, cn)] + [conf, TrackerDeleteMember(uid, cn)][..k], {cn})
    ensures k == 2 ==> FullBlock([DirDeleteMember(uid, cn)] + [conf, TrackerDeleteMember(uid, cn)][..k], uid, d0)
  {
    var block := [DirDeleteMember(uid, cn)] + [conf, TrackerDeleteMember(uid, cn)][..k];
    if k == 2 {
      assert block == [DirDeleteMember(uid, cn), conf, TrackerDeleteMember(uid, cn)];
      forall call
        ensures Tally(block, call) == multiset{cn}
      {
        FullBlockTally(uid, cn, conf, call);
      }
    }
  }

  /** A full block names cn once for each kind of call. */
  lemma FullBlockTally(uid: Uid, cn: Cn, conf: Step, call: Call)
    requires conf.Configure? && conf.target.cn == cn
    ensures Tally([DirDeleteMember(uid, cn), conf, TrackerDeleteMember(uid, cn)], call) == multiset{cn}
  {
    var block := [DirDeleteMember(uid, cn), conf, TrackerDeleteMember(uid, cn)];
    assert block[1..] == [conf, TrackerDeleteMember(uid, cn)];
    assert block[1..][1..] == [TrackerDeleteMember(uid, cn)];
    assert block[1..][1..][1..] == [];
    assert Tally(block[1..][1..], call) == Concerns(TrackerDeleteMember(uid, cn), call);
    assert Tally(block[1..], call) == Concerns(conf, call) + Concerns(TrackerDeleteMember(uid, cn), call);
  }

  /** One more project left in full: the account grows by exactly that project. */
  lemma OncePerProjectStep(removals: seq<Step>, block: seq<Step>, done: set<Cn>, cn: Cn)
    requires cn !in done && OncePerProject(removals, done) && OncePerProject(block, {cn})
    ensures OncePerProject(removals + block, done + {cn})
  {
    forall call, c
      ensures Tally(removals + block, call)[c] == if c in done + {cn} then 1 else 0
    {
      TallyAppend(removals, block, call);
    }
  }
}

=== FILE: steps.dfy ===
/** The calls the orchestrator makes on its collaborators, recorded in order.
    A step is recorded when it is attempted; when it throws, it is the last step. */
module Steps {
  import opened Errors
  import opened Directory

  /** A repository folder on disk, as Utilidades.existeCarpeta(ruta, cn) names it. */
  datatype Folder = Folder(ruta: string, cn: Cn)

  datatype Step =
    // directory mutations
    | DirAddProject(project: Project)
    | DirAddUser(user: User)
    | DirAddMember(cn: Cn, uid: Uid)
    | DirAddAdmin(cn: Cn, uid: Uid)
    | DirAddRepo(repo: Repo, cn: Cn)
    | DirEditUser(user: User)
    | DirDeleteMember(uid: Uid, cn: Cn)
    | DirDeleteAdmin(uid: Uid, cn: Cn)
    | DirDeleteRepo(tipo: string, cn: Cn)
    | DirDeleteProject(cn: Cn)
    | DirDeleteUser(uid: Uid)
    // ConfiguradorApache.configurarProyecto and borrarProyecto
    | Configure(projects: set<Project>, target: Project, uids: set<Uid>)
    | PurgeConfig(projects: set<Project>, removed: Project)
    // GestorRedmine
    | TrackerCreateProject(project: Project)
    | TrackerHidePublic(cn: Cn)
    | TrackerCreateUser(user: User, plainPass: string)
    | TrackerAddMember(uid: Uid, cn: Cn)
    | TrackerAddAdmin(uid: Uid, cn: Cn)
    | TrackerEditUser(user: User)
    | TrackerDeleteMember(uid: Uid, cn: Cn)
    | TrackerDeleteAdmin(uid: Uid, cn: Cn)
    | TrackerDeleteProject(project: Project)
    | TrackerDeleteUser(uid: Uid)
    // SSH jail file, SSH restart, repository folder removal
    | WriteJail(uids: set<Uid>)
    | RestartSsh
    | DeleteFolder(folder: Folder)

  /** The exception that escapes when a collaborator step (not a directory mutation) fails. */
  function FailureOf(s: Step): Error
  {
    match s
    case Configure(_, _, _) => ApacheFailure
    case PurgeConfig(_, _) => ApacheFailure
    case WriteJail(_) => JailFailure
    case RestartSsh => SshRestartFailure
    case DeleteFolder(_) => ConsoleFailure
    case DirAddProject(_) => DirectoryFailure
    case DirAddUser(_) => DirectoryFailure
    case DirAddMember(_, _) => DirectoryFailure
    case DirAddAdmin(_, _) => DirectoryFailure
    case DirAddRepo(_, _) => DirectoryFailure
    case DirEditUser(_) => DirectoryFailure
    case DirDeleteMember(_, _) => DirectoryFailure
    case DirDeleteAdmin(_, _) => DirectoryFailure
    case DirDeleteRepo(_, _) => DirectoryFailure
    case DirDeleteProject(_) => DirectoryFailure
    case DirDeleteUser(_) => DirectoryFailure
    case _ => RedmineFailure
  }

  /** configurarProyecto(getListaProyectos(), getProyecto(cn), getListaUIdsUsuario()),
      every argument read from the directory as it stands. */
  function Reconfigure(d: Store, cn: Cn): Step
    requires cn in d.projects
  {
    Configure(ProjectList(d), d.projects[cn], Uids(d))
  }

  /** The trace went from `before` to `after` by running a non-empty prefix of
      `plan`, each step of which may throw: the run ends normally only when the
      whole plan ran, and a failure is that of the last step attempted. */
  ghost predicate Ran(before: seq<Step>, after: seq<Step>, plan: seq<Step>, r: Outcome)
  {
    && |before| < |after| <= |before| + |plan|
    && after == before + plan[..|after| - |before|]
    && (r.Done? ==> |after| == |before| + |plan|)
    && (r.Failed? ==> r.error == FailureOf(after[|after| - 1]))
  }

  /** A run of whole[n + 1..m] after the first n + 1 steps of whole has issued
      a prefix of whole of at least n + 2 steps and at most m. */
  lemma RanWithin(t0: seq<Step>, whole: seq<Step>, n: nat, m: nat, after: seq<Step>, r: Outcome)
    requires n < m <= |whole|
    requires Ran(t0 + whole[..n + 1], after, whole[n + 1..m], r)
    ensures |t0| + n + 1 < |after| <= |t0| + m
    ensures after == t0 + whole[..|after| - |t0|]
    ensures r.Done? ==> |after| == |t0| + m
  {
    var k := |after| - |t0 + whole[..n + 1]|;
    assert whole[..n + 1] + whole[n + 1..m][..k] == whole[..|after| - |t0|];
  }

  lemma Regroup(a: seq<Step>, b: seq<Step>, c: seq<Step>)
    ensures a + (b + c) == a + b + c
  {
  }
}

=== FILE: text.dfy ===
/** Java's String.equalsIgnoreCase, restricted to the ASCII case mapping. */
module Text {

  function Upper(c: char): char
  {
    if 'a' <= c <= 'z' then (c as int - 32) as char else c
  }

  function Lower(c: char): char
  {
    if 'A' <= c <= 'Z' then (c as int + 32) as char else c
  }

  /** The per-character test of String.regionMatches with ignoreCase set. */
  predicate CharEqualsIgnoreCase(a: char, b: char)
  {
    a == b || Upper(a) == Upper(b) || Lower(Upper(a)) == Lower(Upper(b))
  }

  /** String.equalsIgnoreCase: same length, and every pair of characters equal ignoring case. */
  predicate EqualsIgnoreCase(s: string, t: string)
    ensures s == t ==> EqualsIgnoreCase(s, t)
    ensures EqualsIgnoreCase(s, t) ==> |s| == |t|
  {
    |s| == |t| && forall i :: 0 <= i < |s| ==> CharEqualsIgnoreCase(s[i], t[i])
  }

  /** The string with every letter upper-cased. */
  function Folded(s: string): string
  {
    if s == [] then [] else [Upper(s[0])] + Folded(s[1..])
  }

  lemma {:induction false} FoldedAt(s: string, i: nat)
    requires i < |s|
    ensures |Folded(s)| == |s| && Folded(s)[i] == Upper(s[i])
  {
    if i > 0 {
      FoldedAt(s[1..], i - 1);
    } else if |s| > 1 {
      FoldedAt(s[1..], 0);
    }
  }

  lemma {:induction false} FoldedLength(s: string)
    ensures |Folded(s)| == |s|
  {
    if s != [] {
      FoldedLength(s[1..]);
    }
  }

  lemma CharEqualsIgnoreCaseIffUpper(a: char, b: char)
    ensures CharEqualsIgnoreCase(a, b) <==> Upper(a) == Upper(b)
  {
  }

  /** Two strings match ignoring case exactly when their upper-cased forms are equal;
      in particular the relation is an equivalence. */
  lemma EqualsIgnoreCaseIffFolded(s: string, t: string)
    ensures EqualsIgnoreCase(s, t) <==> Folded(s) == Folded(t)
  {
    FoldedLength(s);
    FoldedLength(t);
    if EqualsIgnoreCase(s, t) {
      forall i | 0 <= i < |s|
        ensures Folded(s)[i] == Folded(t)[i]
      {
        FoldedAt(s, i);
        FoldedAt(t, i);
        CharEqualsIgnoreCaseIffUpper(s[i], t[i]);
      }
    }
    if Folded(s) == Folded(t) {
      forall i | 0 <= i < |s|
        ensures CharEqualsIgnoreCase(s[i], t[i])
      {
        FoldedAt(s, i);
        FoldedAt(t, i);
        CharEqualsIgnoreCaseIffUpper(s[i], t[i]);
      }
    }
  }
}
